=== FILE: README.md ===
# Crypto portfolio tracker: session-state ledger

A Dafny model of the bookkeeping in `crypto_tracker.py`, a single-page
Streamlit app. The app keeps four values in session state:

- the portfolio, a dict from ticker to amount, in insertion order;
- the set of selected rows;
- the row in edit mode;
- the amount that row had when editing began.

Streamlit re-runs the whole script on every user interaction. The model
treats one re-run, triggered by one widget, as one atomic method call.

- `ticker.dfy`, module `Ticker`: the `.upper().strip()` normalisation of the
  ticker typed into the add form.
- `holdings.dfy`, module `Holdings`: the portfolio dict, as the sequence of
  its entries in iteration order. It has the dict operations the script uses:
  assignment (`Put`), lookup (`Amount`), `del` (`Delete`) and the effect of
  deleting a set of keys (`Without`). Lemmas state what each one does to the
  keys, the amounts and the order.
- `valuation.dfy`, module `Valuation`: the simulated price, the per-row value
  and the loop that adds up the total.
- `session.dfy`, module `Session`: class `Tracker`. Its fields are the session
  state. Its methods are the interactions: add, tick or clear a checkbox,
  delete the selection, and start, save or discard an edit. Two ghost fields
  stand for the data file. `persisted` is what this session last wrote to it,
  and `writes` counts this session's calls to `save_portfolio`. The invariant
  `Valid()` says four things:
  - the portfolio has distinct keys;
  - the selection only names rows that exist;
  - an edit always has its snapshot;
  - what this session last wrote to the file is its portfolio. This is what
    `load_portfolio` would read back only while no other session has written
    the same file.

Facts about the code that the contracts rely on:

- Adding a ticker that is already present replaces its amount; it does not
  add to it (crypto_tracker.py:38).
- The add form accepts an amount of 0, because its lower bound is 0.0
  (crypto_tracker.py:35).
- The edit input has no lower bound, so saving an edit may store a negative
  amount (crypto_tracker.py:90, 100). No lemma claims that every amount is
  non-negative after an edit. `PutNonNegative` and `Add` only claim that
  adding keeps a non-negative portfolio non-negative.
- Holdings are keyed by the normalised ticker text (crypto_tracker.py:34).

Two behaviours of the code are modelled as written:

- `edit_original_value` is never reset. Only the next edit overwrites it.
- Deleting a row that is in edit mode leaves `edit_row` pointing at the
  deleted ticker.

## Model

| member | source | states |
|---|---|---|
| Ticker.UpperChar | crypto_tracker.py:34 | upper-casing maps each ASCII letter 'a'..'z' to its upper-case letter (code point minus 32) and keeps every other character; no lower-case letter is left, and whitespace stays whitespace |
| Ticker.Upper | crypto_tracker.py:34 | (definition, no contract) `.upper()` on the typed text: the same length, each character upper-cased by `UpperChar` |
| Ticker.StripLeft | crypto_tracker.py:34 | the result is a suffix of the input that does not start with whitespace; every character dropped was whitespace |
| Ticker.StripRight | crypto_tracker.py:34 | the result is a prefix of the input that does not end with whitespace; every character dropped was whitespace |
| Ticker.Strip | crypto_tracker.py:34 | the result is a contiguous middle part of the input with only whitespace before and after it removed; no whitespace is left at either end, and the result is empty exactly when the input is all whitespace |
| Ticker.Normalize | crypto_tracker.py:34 | the key is the upper-cased text with only the surrounding whitespace removed; it has no lower-case letter and no whitespace at either end; it is empty exactly when the typed text is blank, which is the case where the add form does nothing (line 37) |
| Ticker.NormalizeKeepsKey | crypto_tracker.py:34 | text with no lower-case letter and no whitespace at either end normalises to itself, so different keys such as "BTC" and "ETH" stay different |
| Ticker.NormalizeIdempotent | crypto_tracker.py:34 | normalising a normalised key returns the same key |
| Ticker.StripLeftSkipsBlank | crypto_tracker.py:34 | leading blanks do not affect the result of `lstrip` |
| Ticker.StripRightSkipsBlank | crypto_tracker.py:34 | trailing blanks do not affect the result of `rstrip` |
| Ticker.StripLeftKeepsTail | crypto_tracker.py:34 | `lstrip` of non-blank text followed by a tail keeps the whole tail |
| Ticker.StripIgnoresPadding | crypto_tracker.py:34 | any blank padding before and any blank padding after, not necessarily the same, does not change the result of `strip` |
| Ticker.NormalizeIgnoresCaseAndPadding | crypto_tracker.py:34 | text typed in any letter case, with any blank padding before and any blank padding after, yields the same key as the upper-case text without padding |
| Holdings.Tickers | crypto_tracker.py:64 | the iteration order of the dict: one key per entry, in entry order |
| Holdings.Amount | crypto_tracker.py:84-86 | (definition, no contract) the amount stored for a present ticker, which the edit button copies as the snapshot: the amount of the entry with that key |
| Holdings.Put | crypto_tracker.py:38 | (definition, no contract) the dict assignment `portfolio[t] = a`, also at line 100: the entry for `t` is overwritten where it stands, or a new entry is appended; its properties are the Put lemmas below |
| Holdings.Delete | crypto_tracker.py:49 | (definition, no contract) `del portfolio[t]` for a present key: the entry for `t` is removed and the rest keep their order; `DeleteIsWithout` states its effect |
| Holdings.Without | crypto_tracker.py:48-50 | (definition, no contract) the net effect of the delete loop: every entry whose key is selected is dropped and the rest keep their order; its properties are the Without lemmas below |
| Holdings.PutAmount | crypto_tracker.py:38 | after `portfolio[t] = a`, `t` maps to exactly `a` (an existing amount is replaced, not summed) and every other key keeps its amount |
| Holdings.PutOrder | crypto_tracker.py:38 | assigning to a present key keeps the iteration order; assigning to a new key appends the entry at the end |
| Holdings.PutKeys | crypto_tracker.py:38 | after the assignment the keys are the old keys plus `t` |
| Holdings.PutDistinct | crypto_tracker.py:38 | assignment never creates a second entry for a key |
| Holdings.PutNonNegative | crypto_tracker.py:35-38 | assigning an amount of at least 0 keeps all amounts at least 0 |
| Holdings.WithoutKeys | crypto_tracker.py:48-50 | after the selected keys are deleted, the keys left are exactly the old keys outside the selection |
| Holdings.WithoutAmount | crypto_tracker.py:48-50 | every key that survives the deletion keeps its amount |
| Holdings.WithoutOrder | crypto_tracker.py:48-50 | the keys left after the deletion are the old keys in their old iteration order, with the selected ones left out |
| Holdings.WithoutAbsent | crypto_tracker.py:46-52 | filtering out a set of keys none of which is in the portfolio leaves it as it was; the script reaches this only with an empty selection, which the guard at line 46 skips. The `del` at line 49 would raise KeyError on an absent key; `Valid()` rules that out by keeping the selection inside the portfolio's keys |
| Holdings.WithoutDistinct | crypto_tracker.py:48-50 | deletion never creates a duplicate key |
| Holdings.WithoutTwice | crypto_tracker.py:48-50 | deleting one set of keys and then a second set is the same as deleting their union at once |
| Holdings.DeleteIsWithout | crypto_tracker.py:49 | in a dict, `del` of a present key drops exactly that key and keeps the order of the rest |
| Valuation.Price | crypto_tracker.py:66 | the simulated price lies in 100000..109999 whatever the hash |
| Valuation.Value | crypto_tracker.py:67 | (definition, no contract) a row's value `price * amount` |
| Valuation.Rows | crypto_tracker.py:64-67 | (definition, no contract) one row per holding, in the dict's iteration order, with its price and value |
| Valuation.Sum | crypto_tracker.py:62-68 | (definition, no contract) the running sum `total_value`: 0.0 plus each row's value, front to back |
| Valuation.Total | crypto_tracker.py:115 | (definition, no contract) the total shown under the portfolio summary: the sum of the rows of the portfolio the loop iterates; on the run in which Save is clicked, that is the portfolio before the save |
| Valuation.Valuate | crypto_tracker.py:62-68 | the loop yields one row per holding, in iteration order, with that holding's ticker and amount, a price in 100000..109999 and value = price × amount; `total_value` ends as the sum of all row values. The loop is the valuation of the portfolio it is given; on the run in which Save is clicked the script iterates the portfolio as it was before the save (see "## Left out") |
| Valuation.SumAppend | crypto_tracker.py:68 | the total of two consecutive runs of rows is the sum of their totals |
| Valuation.TotalCons | crypto_tracker.py:64-68 | the total is the first holding's value plus the total of the rest |
| Valuation.TotalNonNegative | crypto_tracker.py:62-68 | a portfolio with no negative amount has a total of at least 0 |
| Valuation.TotalAfterPut | crypto_tracker.py:62-68 | after `portfolio[t] = a`, the total changes by the new value of `t` minus its old value, or grows by the new value when `t` was absent |
| Session.Tracker.constructor | crypto_tracker.py:20-28 | the first run starts from the loaded portfolio with nothing selected, no row in edit mode and no write yet; the invariant holds |
| Session.Tracker.SavePortfolio | crypto_tracker.py:16-18 | the data file now holds the portfolio; it is one more write |
| Session.Tracker.Add | crypto_tracker.py:33-40 | a blank ticker changes nothing and writes nothing; otherwise the normalised ticker is set to exactly the entered amount, nothing else changes, and the file is written once |
| Session.Tracker.SetChecked | crypto_tracker.py:78-82 | ticking adds the ticker to the selection and clearing removes it; the selection stays inside the portfolio's keys |
| Session.Tracker.DeleteSelected | crypto_tracker.py:45-52 | with a selection, exactly the selected tickers are removed, the rest keep their amounts and order, the selection ends empty and the file is written once; with no selection nothing changes |
| Session.Tracker.StartEdit | crypto_tracker.py:84-86 | the row enters edit mode with its current amount as the snapshot, replacing any earlier edit; the portfolio is not touched |
| Session.Tracker.SaveEdit | crypto_tracker.py:97-103 | the edit commits exactly when the new amount differs from the snapshot; then only that ticker changes, the file is written once and edit mode ends; otherwise nothing changes and nothing is written |
| Session.Tracker.DiscardEdit | crypto_tracker.py:104-105 | edit mode ends; the portfolio, the selection and the file are untouched |

## Left out

- Rendering is not modelled: the title, headers, columns, success messages and number formatting (crypto_tracker.py:31-32, 55-60, 93-95, 108-115).
- JSON file I/O in `load_portfolio` and `save_portfolio` is not modelled (crypto_tracker.py:9-18). The data file is the ghost `persisted` snapshot plus the ghost `writes` count. The constructor takes the loaded portfolio as a parameter. JSON round-tripping and a crash on a corrupt file are not modelled.
- Python's `hash()` is salted per process and is a function parameter. Only the bound that `% 10000` gives is proved.
- Amounts and totals are `real`. Floating-point rounding is not modelled, and neither is the `!=` comparison of floats at line 98.
- Streamlit's rerun and widget-key lifecycle is not modelled. For example, the `checkbox_{symbol}` keys are never removed (crypto_tracker.py:75-77). Each interaction is one atomic method call.
- Interactions happen only on widgets the page shows. The requires clauses encode that: checkboxes and edit buttons exist only for rows of the portfolio, and Save and Discard exist only on the row in edit mode. The Delete button appears only when something is selected; the model expresses this as a branch in which nothing happens.
- The add form's "not submitted" re-run does nothing and is not modelled. `Add` is the submitted case.
- Ticker.Normalize: `.upper()` is modelled for ASCII only. Full Unicode case mapping (for example 'ß' to "SS", or accented letters) is not modelled. `.strip()` removes only the ASCII whitespace that `str.isspace` accepts (9-13, 28-31 and the space), not the non-ASCII whitespace.
- Every mutation is written through `save_portfolio`. A write that fails is not modelled.
- One session is modelled, and it is the only writer of the data file. Every browser session writes the same fixed path (crypto_tracker.py:6, 16-18) but loads it only on its first run (21-22). Another session writing that file makes the file differ from `persisted`, which `Valid()` does not capture.
- The total shown on the run in which Save is clicked is not modelled. There the loop at crypto_tracker.py:64-68 has already added the edited row's old value when line 100 assigns the new amount into the dict being iterated. So that run shows `Total(hash, old(portfolio))` until the next interaction. The model runs `SaveEdit` and `Valuate` as separate steps, and `Valuate` run after `SaveEdit` gives the total of the next run. The other interactions do not differ: `Add` and `DeleteSelected` change the dict before the loop, and the rest change no amount.

=== FILE: holdings.dfy ===
/** The portfolio the script keeps in session state: a Python dict from ticker
    to amount. A dict has one entry per key and iterates in insertion order;
    assigning to an existing key keeps its place, assigning to a new key
    appends it, and `del` removes the key or raises when it is absent. The
    dict is modelled as the sequence of its entries in iteration order. */
module Holdings {

  datatype Holding = Holding(ticker: string, amount: real)

  type Portfolio = seq<Holding>

  /** The keys in iteration order. */
  function Tickers(h: Portfolio): (ks: seq<string>)
    ensures |ks| == |h|
    ensures forall i :: 0 <= i < |h| ==> ks[i] == h[i].ticker
  {
    if h == [] then [] else [h[0].ticker] + Tickers(h[1..])
  }

  function Keys(h: Portfolio): set<string> {
    set t | t in Tickers(h)
  }

  /** No key occurs twice, as in any dict. */
  predicate Distinct(h: Portfolio) {
    h == [] || (h[0].ticker !in Tickers(h[1..]) && Distinct(h[1..]))
  }

  /** Every amount is at least zero. */
  predicate NonNegative(h: Portfolio) {
    forall i :: 0 <= i < |h| ==> h[i].amount >= 0.0
  }

  /** `portfolio[t]`, defined only for a present key. */
  function Amount(h: Portfolio, t: string): real
    requires t in Tickers(h)
  {
    if h[0].ticker == t then h[0].amount else Amount(h[1..], t)
  }

  /** `portfolio[t] = a`: overwrite in place, or append a new entry. */
  function Put(h: Portfolio, t: string, a: real): Portfolio {
    if h == [] then [Holding(t, a)]
    else if h[0].ticker == t then [Holding(t, a)] + h[1..]
    else [h[0]] + Put(h[1..], t, a)
  }

  /** `del portfolio[t]`; the dict raises KeyError for an absent key. */
  function Delete(h: Portfolio, t: string): Portfolio
    requires t in Tickers(h)
  {
    if h[0].ticker == t then h[1..] else [h[0]] + Delete(h[1..], t)
  }

  /** The portfolio with every entry whose key is in `dead` dropped and the
      rest kept in order. */
  function Without(h: Portfolio, dead: set<string>): Portfolio {
    if h == [] then []
    else if h[0].ticker in dead then Without(h[1..], dead)
    else [h[0]] + Without(h[1..], dead)
  }

  // ----- Put -----

  /** Assignment makes `t` map to exactly `a` (it does not add to a previous
      amount) and leaves every other key's amount as it was. */
  lemma {:induction false} PutAmount(h: Portfolio, t: string, a: real, u: string)
    requires u == t || u in Tickers(h)
    ensures u in Tickers(Put(h, t, a))
    ensures Amount(Put(h, t, a), u) == if u == t then a else Amount(h, u)
  {
    if h != [] && h[0].ticker != t && h[0].ticker != u {
      PutAmount(h[1..], t, a, u);
    }
  }

  /** Re-assigning a present key keeps the iteration order; assigning a new
      key appends it at the end. */
  lemma {:induction false} PutOrder(h: Portfolio, t: string, a: real)
    ensures t in Tickers(h) ==> Tickers(Put(h, t, a)) == Tickers(h)
    ensures t !in Tickers(h) ==> Put(h, t, a) == h + [Holding(t, a)]
  {
    if h != [] && h[0].ticker != t {
      PutOrder(h[1..], t, a);
      assert h == [h[0]] + h[1..];
    }
  }

  /** The keys after an assignment are the old keys plus `t`. */
  lemma {:induction false} PutKeys(h: Portfolio, t: string, a: real, u: string)
    ensures u in Tickers(Put(h, t, a)) <==> u in Tickers(h) || u == t
  {
    if h != [] && h[0].ticker != t {
      PutKeys(h[1..], t, a, u);
    }
  }

  /** Assignment never creates a second entry for a key. */
  lemma {:induction false} PutDistinct(h: Portfolio, t: string, a: real)
    requires Distinct(h)
    ensures Distinct(Put(h, t, a))
  {
    if h != [] && h[0].ticker != t {
      var rest := Put(h[1..], t, a);
      PutDistinct(h[1..], t, a);
      PutKeys(h[1..], t, a, h[0].ticker);
      assert Put(h, t, a) == [h[0]] + rest;
      assert ([h[0]] + rest)[1..] == rest;
    }
  }

  /** Amounts entered through the add form are never negative, so adding
      keeps a portfolio free of negative amounts. */
  lemma {:induction false} PutNonNegative(h: Portfolio, t: string, a: real)
    requires NonNegative(h) && a >= 0.0
    ensures NonNegative(Put(h, t, a))
  {
    if h != [] && h[0].ticker != t {
      PutNonNegative(h[1..], t, a);
    }
  }

  // ----- Without and Delete -----

  /** The keys left are exactly the old keys outside `dead`. */
  lemma {:induction false} WithoutKeys(h: Portfolio, dead: set<string>, u: string)
    ensures u in Tickers(Without(h, dead)) <==> u in Tickers(h) && u !in dead
  {
    if h != [] {
      WithoutKeys(h[1..], dead, u);
    }
  }

  /** The keys of `ks` outside `dead`, in the order of `ks`. */
  function KeysOutside(ks: seq<string>, dead: set<string>): seq<string> {
    if ks == [] then []
    else if ks[|ks| - 1] in dead then KeysOutside(ks[..|ks| - 1], dead)
    else KeysOutside(ks[..|ks| - 1], dead) + [ks[|ks| - 1]]
  }

  /** The surviving keys keep their iteration order: they are the old keys,
      in order, with those in `dead` left out. */
  lemma {:induction false} WithoutOrder(h: Portfolio, dead: set<string>)
    ensures Tickers(Without(h, dead)) == KeysOutside(Tickers(h), dead)
  {
    if h != [] {
      var init := h[..|h| - 1];
      var last := h[|h| - 1];
      assert h == init + [last];
      WithoutSnoc(init, last, dead);
      WithoutOrder(init, dead);
      TickersAppend(Without(init, dead), [last]);
      assert Tickers(h)[..|h| - 1] == Tickers(init);
    }
  }

  /** The keys of two runs of entries are the keys of each, in turn. */
  lemma TickersAppend(a: Portfolio, b: Portfolio)
    ensures Tickers(a + b) == Tickers(a) + Tickers(b)
  {
  }

  /** Filtering a portfolio with one more entry at the end. */
  lemma {:induction false} WithoutSnoc(h: Portfolio, x: Holding, dead: set<string>)
    ensures Without(h + [x], dead) == Without(h, dead) + (if x.ticker in dead then [] else [x])
  {
    if h == [] {
      assert h + [x] == [x];
    } else {
      assert (h + [x])[1..] == h[1..] + [x];
      WithoutSnoc(h[1..], x, dead);
    }
  }

  /** A surviving key keeps its amount. */
  lemma {:induction false} WithoutAmount(h: Portfolio, dead: set<string>, u: string)
    requires u in Tickers(h) && u !in dead
    ensures u in Tickers(Without(h, dead))
    ensures Amount(Without(h, dead), u) == Amount(h, u)
  {
    WithoutKeys(h, dead, u);
    if h[0].ticker != u {
      WithoutAmount(h[1..], dead, u);
    }
  }

  /** Dropping keys that are not in the portfolio changes nothing. */
  lemma {:induction false} WithoutAbsent(h: Portfolio, dead: set<string>)
    requires Keys(h) !! dead
    ensures Without(h, dead) == h
  {
    if h != [] {
      assert h[0].ticker in Keys(h);
      WithoutAbsent(h[1..], dead);
    }
  }

  /** Dropping keys never creates a duplicate. */
  lemma {:induction false} WithoutDistinct(h: Portfolio, dead: set<string>)
    requires Distinct(h)
    ensures Distinct(Without(h, dead))
  {
    if h != [] {
      WithoutDistinct(h[1..], dead);
      WithoutKeys(h[1..], dead, h[0].ticker);
    }
  }

  /** Dropping the keys of `a` and then those of `b` is dropping those of
      `a + b` at once. */
  lemma {:induction false} WithoutTwice(h: Portfolio, a: set<string>, b: set<string>)
    ensures Without(Without(h, a), b) == Without(h, a + b)
  {
    if h != [] {
      WithoutTwice(h[1..], a, b);
    }
  }

  /** In a dict, `del` of a present key is dropping that one key. */
  lemma {:induction false} DeleteIsWithout(h: Portfolio, t: string)
    requires Distinct(h) && t in Tickers(h)
    ensures Delete(h, t) == Without(h, {t})
  {
    if h[0].ticker == t {
      WithoutAbsent(h[1..], {t});
    } else {
      DeleteIsWithout(h[1..], t);
    }
  }
}

=== FILE: session.dfy ===
/** The session state of the tracker page and the interactions that change
    it. Streamlit re-runs the whole script on each interaction; each method
    below is the effect of one such re-run triggered by one widget. */
module Session {
  import opened Holdings
  import Ticker

  datatype Option<T> = None | Some(value: T)

  class Tracker {
    /** `st.session_state.portfolio`: ticker to amount, in insertion order. */
    var portfolio: Portfolio
    /** `st.session_state.selected_rows`: the tickers whose checkbox is ticked. */
    var selected: set<string>
    /** `st.session_state.edit_row`: the ticker in edit mode, if any. */
    var editRow: Option<string>
    /** `st.session_state.edit_original_value`: the amount the row had when
        its edit started; never reset once set. */
    var editOriginal: Option<real>
    /** What this session last wrote to the data file. It is what
        `load_portfolio` would read back as long as no other session has
        written the same file since. */
    ghost var persisted: Portfolio
    /** How many times `save_portfolio` has written the data file. */
    ghost var writes: nat

    /** The session invariant: the portfolio is a dict, the selection only
        names rows that exist, an edit always has its snapshot, and what this
        session last wrote to the data file is its portfolio. */
    ghost predicate Valid()
      reads this
    {
      && Distinct(portfolio)
      && selected <= Keys(portfolio)
      && (editRow.Some? ==> editOriginal.Some?)
      && persisted == portfolio
    }

    /** First run of the script: the portfolio is what `load_portfolio`
        returned (an empty dict when there was no file), nothing is selected
        and no row is in edit mode. */
    constructor (stored: Portfolio)
      requires Distinct(stored)
      ensures Valid()
      ensures portfolio == stored && selected == {}
      ensures editRow == None && editOriginal == None
      ensures writes == 0
    {
      portfolio := stored;
      selected := {};
      editRow := None;
      editOriginal := None;
      persisted := stored;
      writes := 0;
    }

    /** `save_portfolio`: the data file now holds the portfolio. */
    method SavePortfolio()
      modifies this
      ensures persisted == portfolio && writes == old(writes) + 1
      ensures portfolio == old(portfolio) && selected == old(selected)
      ensures editRow == old(editRow) && editOriginal == old(editOriginal)
    {
      persisted := portfolio;
      writes := writes + 1;
    }

    /** Submitting the add form with the raw ticker text and the amount. A
        blank ticker does nothing. Otherwise the normalised ticker is set to
        exactly the entered amount (an existing amount is replaced, not added
        to) and the file is written once. The amount widget has a lower bound
        of 0.0, so the entered amount is never negative. */
    method Add(raw: string, amount: real) returns (added: bool)
      requires Valid() && amount >= 0.0
      modifies this
      ensures Valid()
      ensures added <==> Ticker.Normalize(raw) != []
      ensures added ==> portfolio == Put(old(portfolio), Ticker.Normalize(raw), amount)
      ensures added ==> writes == old(writes) + 1
      ensures !added ==> portfolio == old(portfolio) && writes == old(writes)
      ensures NonNegative(old(portfolio)) ==> NonNegative(portfolio)
      ensures selected == old(selected)
      ensures editRow == old(editRow) && editOriginal == old(editOriginal)
    {
      var symbol := Ticker.Normalize(raw);
      added := symbol != [];
      if added {
        forall u ensures u in Tickers(Put(portfolio, symbol, amount)) <==> u in Tickers(portfolio) || u == symbol {
          PutKeys(portfolio, symbol, amount, u);
        }
        PutDistinct(portfolio, symbol, amount);
        if NonNegative(portfolio) {
          PutNonNegative(portfolio, symbol, amount);
        }
        portfolio := Put(portfolio, symbol, amount);
        SavePortfolio();
      }
    }

    /** The checkbox of a shown row: ticking it selects the ticker, clearing
        it deselects it. Only rows of the portfolio have checkboxes. */
    method SetChecked(symbol: string, checked: bool)
      requires Valid() && symbol in Keys(portfolio)
      modifies this
      ensures Valid()
      ensures selected == if checked then old(selected) + {symbol} else old(selected) - {symbol}
      ensures portfolio == old(portfolio) && writes == old(writes)
      ensures editRow == old(editRow) && editOriginal == old(editOriginal)
    {
      if checked {
        selected := selected + {symbol};
      } else {
        selected := selected - {symbol};
      }
    }

    /** The "Delete Selected" button, shown only while something is selected.
        Each selected ticker is deleted from the portfolio and from the
        selection, one at a time, then the file is written once. Every other
        holding keeps its amount and its place. */
    method DeleteSelected() returns (deleted: bool)
      requires Valid()
      modifies this
      ensures Valid()
      ensures deleted <==> old(selected) != {}
      ensures portfolio == Without(old(portfolio), old(selected))
      ensures selected == {}
      ensures writes == old(writes) + (if deleted then 1 else 0)
      ensures editRow == old(editRow) && editOriginal == old(editOriginal)
    {
      deleted := selected != {};
      if !deleted {
        WithoutAbsent(portfolio, selected);
        return;
      }
      ghost var victims := selected;
      ghost var before := portfolio;
      WithoutAbsent(before, {});
      assert victims - selected == {};
      while selected != {}
        invariant selected <= victims
        invariant portfolio == Without(before, victims - selected)
        invariant Distinct(portfolio)
        invariant selected <= Keys(portfolio)
        invariant editRow == old(editRow) && editOriginal == old(editOriginal)
        invariant writes == old(writes)
        decreases selected
      {
        var symbol :| symbol in selected;
        DeleteIsWithout(portfolio, symbol);
        WithoutTwice(before, victims - selected, {symbol});
        assert (victims - selected) + {symbol} == victims - (selected - {symbol});
        forall u ensures u in Tickers(Without(portfolio, {symbol})) <==> u in Tickers(portfolio) && u != symbol {
          WithoutKeys(portfolio, {symbol}, u);
        }
        WithoutDistinct(portfolio, {symbol});
        portfolio := Delete(portfolio, symbol);
        selected := selected - {symbol};
      }
      assert victims - selected == victims;
      SavePortfolio();
    }

    /** The pencil button of a shown row: that row enters edit mode, with its
        current amount as the snapshot; any earlier edit is abandoned. */
    method StartEdit(symbol: string)
      requires Valid() && symbol in Keys(portfolio)
      modifies this
      ensures Valid()
      ensures editRow == Some(symbol)
      ensures editOriginal == Some(Amount(old(portfolio), symbol))
      ensures portfolio == old(portfolio) && selected == old(selected)
      ensures writes == old(writes)
    {
      editRow := Some(symbol);
      editOriginal := Some(Amount(portfolio, symbol));
    }

    /** The "Save" button of the row in edit mode. It is offered only when the
        entered amount differs from the snapshot; then that ticker alone gets
        the new amount, in place, the file is written and edit mode ends. With
        an unchanged amount nothing happens and nothing is written. The edit
        input has no lower bound, so the new amount may be negative. */
    method SaveEdit(newAmount: real) returns (saved: bool)
      requires Valid() && editRow.Some? && editRow.value in Keys(portfolio)
      modifies this
      ensures Valid()
      ensures saved <==> newAmount != old(editOriginal).value
      ensures saved ==> portfolio == Put(old(portfolio), old(editRow).value, newAmount)
      ensures saved ==> editRow == None && writes == old(writes) + 1
      ensures !saved ==> portfolio == old(portfolio) && editRow == old(editRow)
      ensures !saved ==> writes == old(writes)
      ensures selected == old(selected) && editOriginal == old(editOriginal)
    {
      var symbol := editRow.value;
      saved := newAmount != editOriginal.value;
      if saved {
        forall u ensures u in Tickers(Put(portfolio, symbol, newAmount)) <==> u in Tickers(portfolio) {
          PutKeys(portfolio, symbol, newAmount, u);
        }
        PutDistinct(portfolio, symbol, newAmount);
        portfolio := Put(portfolio, symbol, newAmount);
        SavePortfolio();
        editRow := None;
      }
    }

    /** The "Discard" button of the row in edit mode: edit mode ends and
        nothing else changes; the file is not written. */
    method DiscardEdit()
      requires Valid() && editRow.Some? && editRow.value in Keys(portfolio)
      modifies this
      ensures Valid()
      ensures editRow == None
      ensures portfolio == old(portfolio) && selected == old(selected)
      ensures editOriginal == old(editOriginal) && writes == old(writes)
    {
      editRow := None;
    }
  }
}

=== FILE: ticker.dfy ===
/** Normalisation of the ticker typed into the add form: the script applies
    `.upper()` and then `.strip()` to the raw text before using it as a key.
    Both are modelled over ASCII: only 'a'..'z' change case, and whitespace is
    the ASCII part of what Python's `str.isspace` accepts. */
module Ticker {

  /** ASCII whitespace as Python's `str.strip()` sees it: tab, line feed,
      vertical tab, form feed, carriage return (9..13), the four separators
      0x1C..0x1F, and the space. */
  predicate IsSpace(c: char) {
    c == ' ' || 9 <= c as int <= 13 || 28 <= c as int <= 31
  }

  predicate Blank(s: string) {
    forall i :: 0 <= i < |s| ==> IsSpace(s[i])
  }

  predicate IsLower(c: char) {
    'a' <= c <= 'z'
  }

  /** `str.upper()` on one character, ASCII letters only. */
  function UpperChar(c: char): (u: char)
    ensures !IsLower(u)
    ensures IsSpace(u) <==> IsSpace(c)
    ensures !IsLower(c) ==> u == c
    ensures IsLower(c) ==> u as int == c as int - 32
  {
    if IsLower(c) then (c as int - 32) as char else c
  }

  function Upper(s: string): string {
    seq(|s|, i requires 0 <= i < |s| => UpperChar(s[i]))
  }

  /** `str.lstrip()`: drops leading whitespace and nothing else. */
  function StripLeft(s: string): (r: string)
    ensures |r| <= |s| && r == s[|s| - |r|..]
    ensures r == [] || !IsSpace(r[0])
    ensures forall i :: 0 <= i < |s| - |r| ==> IsSpace(s[i])
  {
    if s != [] && IsSpace(s[0]) then StripLeft(s[1..]) else s
  }

  /** `str.rstrip()`: drops trailing whitespace and nothing else. */
  function StripRight(s: string): (r: string)
    ensures |r| <= |s| && r == s[..|r|]
    ensures r == [] || !IsSpace(r[|r| - 1])
    ensures forall i :: |r| <= i < |s| ==> IsSpace(s[i])
  {
    if s != [] && IsSpace(s[|s| - 1]) then StripRight(s[..|s| - 1]) else s
  }

  /** `str.strip()`: the result is the input's middle part, with only
      whitespace around it removed; no whitespace is left at either end, and
      the result is empty exactly when the input was all whitespace. */
  function Strip(s: string): (r: string)
    ensures exists i, j :: 0 <= i <= j <= |s| && r == s[i..j] && Blank(s[..i]) && Blank(s[j..])
    ensures r == [] || (!IsSpace(r[0]) && !IsSpace(r[|r| - 1]))
    ensures r == [] <==> Blank(s)
  {
    var l := StripLeft(s);
    var r := StripRight(l);
    assert r != [] ==> r[0] == l[0];
    assert r == [] ==> l == [];
    var i := |s| - |l|;
    var j := i + |r|;
    assert r == s[i..j];
    assert Blank(s[..i]);
    assert Blank(s[j..]) by {
      forall k | 0 <= k < |s| - j ensures IsSpace(s[j..][k]) {
        assert s[j..][k] == l[|r| + k];
      }
    }
    r
  }

  /** Stripping only removes characters: every character of the result is
      one of the input's. */
  lemma StripKeepsChars(s: string, i: nat)
    requires i < |Strip(s)|
    ensures Strip(s)[i] in s
  {
  }

  /** The ticker key the add form produces from the raw text:
      `text.upper().strip()`. It is the upper-cased text with only the
      surrounding whitespace removed; it holds no lower-case letter, has no
      whitespace at either end, and is empty exactly when the text was blank. */
  function Normalize(raw: string): (key: string)
    ensures var up := Upper(raw);
      exists i, j :: 0 <= i <= j <= |up| && key == up[i..j] && Blank(up[..i]) && Blank(up[j..])
    ensures forall i :: 0 <= i < |key| ==> !IsLower(key[i])
    ensures key == [] || (!IsSpace(key[0]) && !IsSpace(key[|key| - 1]))
    ensures key == [] <==> Blank(raw)
  {
    var up := Upper(raw);
    var key := Strip(up);
    assert Blank(up) <==> Blank(raw) by {
      assert forall i :: 0 <= i < |raw| ==> (IsSpace(up[i]) <==> IsSpace(raw[i]));
    }
    forall i | 0 <= i < |key| ensures !IsLower(key[i]) {
      StripKeepsChars(up, i);
    }
    key
  }

  /** Normalising an already normalised key changes nothing, so a key that
      comes back through the form lands on the same holding. */
  lemma NormalizeIdempotent(raw: string)
    ensures Normalize(Normalize(raw)) == Normalize(raw)
  {
    NormalizeKeepsKey(Normalize(raw));
  }

  lemma {:induction false} StripLeftSkipsBlank(pad: string, s: string)
    requires Blank(pad)
    ensures StripLeft(pad + s) == StripLeft(s)
  {
    if pad != [] {
      assert (pad + s)[0] == pad[0];
      assert (pad + s)[1..] == pad[1..] + s;
      StripLeftSkipsBlank(pad[1..], s);
    } else {
      assert pad + s == s;
    }
  }

  lemma {:induction false} StripRightSkipsBlank(s: string, pad: string)
    requires Blank(pad)
    ensures StripRight(s + pad) == StripRight(s)
  {
    if pad != [] {
      var last := |pad| - 1;
      assert (s + pad)[|s + pad| - 1] == pad[last];
      assert (s + pad)[..|s + pad| - 1] == s + pad[..last];
      StripRightSkipsBlank(s, pad[..last]);
    } else {
      assert s + pad == s;
    }
  }

  lemma {:induction false} StripLeftKeepsTail(s: string, tail: string)
    requires !Blank(s)
    ensures StripLeft(s + tail) == StripLeft(s) + tail
  {
    assert (s + tail)[0] == s[0];
    if IsSpace(s[0]) {
      assert (s + tail)[1..] == s[1..] + tail;
      StripLeftKeepsTail(s[1..], tail);
    }
  }

  /** Blank padding before and after does not change what `strip()` returns. */
  lemma StripIgnoresPadding(p: string, s: string, q: string)
    requires Blank(p) && Blank(q)
    ensures Strip(p + s + q) == Strip(s)
  {
    if Blank(s) {
      assert Blank(p + s + q);
    } else {
      assert p + s + q == p + (s + q);
      StripLeftSkipsBlank(p, s + q);
      StripLeftKeepsTail(s, q);
      StripRightSkipsBlank(StripLeft(s), q);
    }
  }

  /** Typing the ticker in any letter case and with any blank padding before
      and after yields the same key as typing it in upper case without
      padding. */
  lemma NormalizeIgnoresCaseAndPadding(p: string, raw: string, q: string)
    requires Blank(p) && Blank(q)
    ensures Normalize(p + raw + q) == Normalize(Upper(raw))
  {
    var up := Upper(raw);
    var upP, upQ := Upper(p), Upper(q);
    assert Blank(upP) && Blank(upQ);
    assert Upper(p + raw + q) == upP + up + upQ;
    assert Upper(up) == up;
    StripIgnoresPadding(upP, up, upQ);
  }

  /** A key as the add form stores it, with no lower-case letter and no
      whitespace at either end, normalises to itself; so distinct keys such
      as "BTC" and "ETH" stay distinct. */
  lemma NormalizeKeepsKey(key: string)
    requires forall i :: 0 <= i < |key| ==> !IsLower(key[i])
    requires key == [] || (!IsSpace(key[0]) && !IsSpace(key[|key| - 1]))
    ensures Normalize(key) == key
  {
  }
}

=== FILE: valuation.dfy ===
/** The valuation pass the script runs over the portfolio on every rerun:
    a simulated price per ticker, a value per row, and the running total. */
module Valuation {
  import opened Holdings

  /** The simulated price `100000 + hash(symbol) % 10000`. Python's `hash` is
      salted per process, so it is a parameter here; Python's `%` floors and
      Dafny's is Euclidean, and for the positive divisor 10000 both give a
      remainder in 0..9999. */
  function Price(hash: string -> int, symbol: string): (p: int)
    ensures 100000 <= p <= 109999
  {
    100000 + hash(symbol) % 10000
  }

  /** One row of the holdings table. */
  datatype Row = Row(ticker: string, amount: real, price: int, value: real)

  /** The value of holding `amount` of `symbol`: price times amount. */
  function Value(hash: string -> int, symbol: string, amount: real): real {
    Price(hash, symbol) as real * amount
  }

  function RowOf(hash: string -> int, x: Holding): Row {
    Row(x.ticker, x.amount, Price(hash, x.ticker), Value(hash, x.ticker, x.amount))
  }

  /** The table rows, one per holding, in the portfolio's iteration order. */
  function Rows(hash: string -> int, h: Portfolio): seq<Row> {
    seq(|h|, i requires 0 <= i < |h| => RowOf(hash, h[i]))
  }

  /** The sum of the row values, added up front to back. */
  function Sum(rows: seq<Row>): real {
    if rows == [] then 0.0 else Sum(rows[..|rows| - 1]) + rows[|rows| - 1].value
  }

  /** The total shown under "Portfolio Summary". */
  function Total(hash: string -> int, h: Portfolio): real {
    Sum(Rows(hash, h))
  }

  /** The loop over `portfolio.items()`: one row per holding, in order, each
      priced inside the simulated range and valued at price times amount;
      `total_value` ends as the sum of all row values. */
  method Valuate(hash: string -> int, h: Portfolio) returns (rows: seq<Row>, total: real)
    ensures |rows| == |h|
    ensures forall i :: 0 <= i < |h| ==>
      && rows[i].ticker == h[i].ticker
      && rows[i].amount == h[i].amount
      && 100000 <= rows[i].price <= 109999
      && rows[i].value == rows[i].price as real * h[i].amount
    ensures rows == Rows(hash, h)
    ensures total == Total(hash, h)
  {
    total := 0.0;
    rows := [];
    for k := 0 to |h|
      invariant rows == Rows(hash, h[..k])
      invariant total == Sum(rows)
    {
      var symbol, amount := h[k].ticker, h[k].amount;
      var price := Price(hash, symbol);
      var value := Value(hash, symbol, amount);
      total := total + value;
      ghost var before := rows;
      rows := rows + [Row(symbol, amount, price, value)];
      assert rows[..|rows| - 1] == before;
      assert rows[k] == RowOf(hash, h[k]);
      assert forall i :: 0 <= i < k ==> rows[i] == before[i];
    }
    assert h[..|h|] == h;
  }

  /** The sum over two runs of rows is the sum of the two sums. */
  lemma {:induction false} SumAppend(a: seq<Row>, b: seq<Row>)
    ensures Sum(a + b) == Sum(a) + Sum(b)
  {
    if b != [] {
      var last := |b| - 1;
      assert (a + b)[..|a + b| - 1] == a + b[..last];
      SumAppend(a, b[..last]);
    } else {
      assert a + b == a;
    }
  }

  /** The valuation of a portfolio with no negative amount is never negative. */
  lemma {:induction false} TotalNonNegative(hash: string -> int, h: Portfolio)
    requires NonNegative(h)
    ensures Total(hash, h) >= 0.0
  {
    if h != [] {
      var init := h[..|h| - 1];
      assert Rows(hash, h)[..|h| - 1] == Rows(hash, init);
      TotalNonNegative(hash, init);
    }
  }

  /** The total of a portfolio is its first row's value plus the total of
      the rest. */
  lemma TotalCons(hash: string -> int, x: Holding, rest: Portfolio)
    ensures Total(hash, [x] + rest) == Value(hash, x.ticker, x.amount) + Total(hash, rest)
  {
    var head := Rows(hash, [x]);
    assert Rows(hash, [x] + rest) == head + Rows(hash, rest);
    assert head[..0] == [];
    SumAppend(head, Rows(hash, rest));
  }

  /** What an assignment `portfolio[t] = a` does to the total: the old row for
      `t`, if any, is replaced by the new one; otherwise the new row's value
      is added. */
  lemma {:induction false} TotalAfterPut(hash: string -> int, h: Portfolio, t: string, a: real)
    ensures t in Tickers(h) ==>
      Total(hash, Put(h, t, a)) == Total(hash, h) - Value(hash, t, Amount(h, t)) + Value(hash, t, a)
    ensures t !in Tickers(h) ==>
      Total(hash, Put(h, t, a)) == Total(hash, h) + Value(hash, t, a)
  {
    if h == [] {
      TotalCons(hash, Holding(t, a), []);
    } else {
      assert h == [h[0]] + h[1..];
      TotalCons(hash, h[0], h[1..]);
      if h[0].ticker == t {
        TotalCons(hash, Holding(t, a), h[1..]);
      } else {
        TotalCons(hash, h[0], Put(h[1..], t, a));
        TotalAfterPut(hash, h[1..], t, a);
      }
    }
  }
}
